=== FILE: README.md ===
# BioBlood decision logic in Dafny

BioBlood is a blood-group prediction demo: a single-page front end
(`Frontend/script.js`) and a Flask back end (`Backend/app.py`) that votes
over three models and keeps users and predictions in SQLite. This project
models the two pieces of it that are logic rather than presentation, and
proves properties of them.

**Front end.**
- `Api`: endpoint routing (`getApiUrl`) and the demo mock (`mockApiRequest`), with its ordered substring dispatch.
- `Api`: the request wrapper (`apiRequest`). It never touches the network for non-prediction calls. It never fails a prediction call: any failure becomes a fixed canned prediction.
- `Session`: the session store (`saveUserSession`, `loadUserSession`, `clearUserSession`). The `user`/`isLoggedIn` globals are mirrored into a string-to-string storage map. JSON is an abstract `Codec`, and the lemmas that need parse-after-stringify to be the identity require `Lawful`.
- `Upload`: the prediction tab (`handleFileSelect`, `handlePrediction`), with the file input, the preview and the predict button as state.

**Back end.**
- `Groups`: the label table `BLOOD_GROUPS` and its inverse.
- `Vote`: the three-model majority vote.
- `Tables`: the three tables as sequences of rows plus their AUTOINCREMENT counters. `Valid` is what SQLite guarantees of them.
- `History`: the `history` query.
- `Handlers`: the handlers `predict`, `signup`, `login`, `history` and `feedback`, as pure transitions of the database value.

Parameters stand for everything nondeterministic or foreign:
- the clocks (`Date.now()`, `toISOString()`, `datetime.now()`);
- the browser's host name;
- what `fetch` did (`FetchOutcome`);
- the image checks (`ImageCheck`);
- the three model outputs and `mode`'s choice among three different votes (`ModelOutputs`).

## Behaviour worth noting

- **Corrupt stored session.** `loadUserSession` has no `try`. A stored user blob that `JSON.parse` rejects makes it throw, and the error reaches its caller (`Session.MalformedBlobThrows`).
- **Restore condition.** `loadUserSession` restores only when the stored blob is a non-empty string and the marker is exactly `"true"`. Anything else leaves the globals as they were.
- **A `null` blob.** A stored `"null"` blob logs the page in with no user object (`Session.NullBlobLogsInWithoutUser`).
- **No fallback for the prediction tab.** `handlePrediction` calls `fetch` itself, not `apiRequest`. A failed prediction from the tab therefore ends in a toast, never in the canned fallback.
- **Image guard.** The image-type check guards only the selection handler. A non-image chosen after an image is still sent (`Upload.NonImageSentAfterImage`).
- **Dropped files.** A dropped image enables the button but is never sent (`Upload.DroppedImageNotSent`).
- **Field names.** The mock history reply carries `predictions` where the consumer reads `history`. The fallback carries `blood_group` where the renderer reads `bloodGroup`. These mismatches are kept as they are and not reconciled.

## Model

`History.Query` and `History.ToEntry` carry no contract of their own. The `History.Query*` lemmas specify the query, and `History.Entries` states how rows become entries.

| member | source | states |
|---|---|---|
| `Api.GetApiUrl` | Frontend/script.js:18-30 | a prediction endpoint goes to the function app whatever the host; any other goes to the local server iff the host is `localhost` or `127.0.0.1`, else to the function app |
| `Api.FirstMatch` | Frontend/script.js:37-90 | ordered dispatch: `None` iff the URL contains no pattern; otherwise the endpoint of a contained pattern that no earlier pattern precedes |
| `Api.MockRoutesInOrder` | Frontend/script.js:37-90 | the mock's chain of tests is exactly first-match dispatch over `/signup`, `/login`, `/profile`, `/history`, `/feedback` in that order |
| `Api.Mock` | Frontend/script.js:33-91 | signup echoes name and email with the clock's id; login returns id 1, "Demo User" and the body's email; it throws iff no pattern matches ("Endpoint not found") or a signup/login has no body |
| `Api.MockFollowsFirstMatch` | Frontend/script.js:37-90 | per matched endpoint the reply's shape: no match throws "Endpoint not found", profile and feedback give their fixed replies, signup/login give a user |
| `Api.ApiRequest` | Frontend/script.js:94-154 | a URL without `/predict` fetches nothing and returns exactly the mock's value or error; a prediction URL fetches the resolved URL, never throws, returns the parsed body on an ok response and the fixed fallback (A+, 0.87, all three models A+) otherwise |
| `Api.Attempt` | Frontend/script.js:95-132 | the `try` block alone: a non-prediction URL is the mock's value or error with nothing fetched; a prediction URL fetches the resolved URL and throws iff the network rejected or an ok response's body was not JSON; an ok body is returned as is; a non-ok response gives the fallback before its body is read |
| `Api.PredictionNeverFails` | Frontend/script.js:112-153 | every prediction request succeeds with the service's body or the fallback, whatever the network did |
| `Api.LoginExample` | Frontend/script.js:49-58 | logging in as `a@b.com` yields user 1, "Demo User", `a@b.com`, with no network traffic |
| `Api.UnknownEndpointThrows` | Frontend/script.js:86-99 | a non-prediction URL matching no pattern throws "Endpoint not found" and fetches nothing |
| `Session.Save` | Frontend/script.js:157-162 | sets the user and the logged-in flag, stores the serialised user under `user` and `"true"` under `isLoggedIn`, and leaves every other key alone |
| `Session.Load` | Frontend/script.js:164-172 | changes nothing unless the blob is present and non-empty and the marker is exactly `"true"`; then a parsed blob becomes the user, logged in, with storage untouched, and a rejected blob throws |
| `Session.Clear` | Frontend/script.js:174-179 | user `null`, logged out, both keys absent, every other key unchanged |
| `Session.SaveMirrors` | Frontend/script.js:157-162 | after a save the durable copy mirrors the in-memory session |
| `Session.ClearMirrors` | Frontend/script.js:174-179 | after a clear the durable copy mirrors the (logged-out) in-memory session |
| `Session.ReloadRestoresMirrored` | Frontend/script.js:157-172 | in a mirrored state a page reload plus load rebuilds exactly the same globals, and a load in place changes nothing |
| `Session.SaveReloadRoundTrip` | Frontend/script.js:157-172 | save, reload, load gives back the same user, logged in |
| `Session.ClearReloadStaysLoggedOut` | Frontend/script.js:164-179 | after a clear, a load (in place or after a reload) leaves the session logged out |
| `Session.LoadPreservesMirrored` | Frontend/script.js:164-172 | load keeps a mirrored state mirrored |
| `Session.NullBlobLogsInWithoutUser` | Frontend/script.js:164-172 | a blob that parses to `null` next to the marker logs in with a `null` user |
| `Session.MalformedBlobThrows` | Frontend/script.js:168-169 | a blob the parser rejects makes the load throw the parser's error |
| `Session.UnmarkedStorageStaysLoggedOut` | Frontend/script.js:164-172 | a missing or non-`"true"` marker, or a missing or empty blob, leaves a reloaded page logged out |
| `Session.LoginThenReloadExample` | Frontend/script.js:607-616 | the mock login of `a@b.com`, saved and restored after a reload, is user 1 "Demo User" `a@b.com`, logged in |
| `Upload.SelectFile` | Frontend/script.js:268-287 | a non-image raises the notice and changes nothing; an image is previewed and enables the button; the file input is never touched |
| `Upload.Choose` | Frontend/script.js:259-263 | the input holds the chosen file whatever its type; the button is enabled afterwards iff it was before or the file is an image |
| `Upload.Drop` | Frontend/script.js:250-257 | the input is unchanged; the button is enabled afterwards iff it was before or the file is an image |
| `Upload.FailureNotice` | Frontend/script.js:319-329 | a network error or a body `response.json()` rejects shows that error's message; a non-ok reply shows its non-empty `error`, else "Prediction failed" |
| `Upload.HandlePrediction` | Frontend/script.js:289-334 | no file: nothing sent, "Please select an image first", state unchanged; otherwise the input's file goes to the function app's `/api/predict` with `user_id` = the user's id or 1, and with contact fields iff a user is set, holding the user's email and name as the form writes them (`undefined` when missing); the button ends enabled; an ok response's body is shown, any other outcome shows only its failure notice |
| `Upload.InitialDisabled` | Frontend/script.js:215 | the tab starts with the button disabled |
| `Upload.EventsKeepEnabledOnlyAfterImage` | Frontend/script.js:268-287 | choosing, dropping and clicking keep the button disabled until an image has been previewed |
| `Upload.NonImageNeverEnables` | Frontend/script.js:272-275 | a non-image, chosen or dropped, never enables a disabled button and raises the notice |
| `Upload.NonImageSentAfterImage` | Frontend/script.js:268-304 | after an image enabled the button, a non-image chosen next is refused with a notice yet sent by the next click |
| `Upload.DroppedImageNotSent` | Frontend/script.js:250-297 | a dropped image enables the button but the click sends nothing and asks for an image |
| `Upload.GuestSubmission` | Frontend/script.js:305-311 | with no user the form carries `user_id` 1 and no contact fields |
| `Groups.Invert` | Backend/app.py:67 | swapping an injective table's pairs gives a map defined exactly on its values that undoes it in both directions |
| `Groups.LabelsAreTheTable` | Backend/app.py:66 | the table holds exactly the eight labels, A+ to AB-, mapped to 0..7 in order, no label twice |
| `Groups.TableIsBijective` | Backend/app.py:66 | the indices are exactly 0..7 and no two labels share one |
| `Groups.InverseIsTotal` | Backend/app.py:67 | the inverse is defined on 0..7 and nowhere else |
| `Groups.InverseBothWays` | Backend/app.py:66-67 | `INV_BLOOD_GROUPS[BLOOD_GROUPS[l]] == l` and `BLOOD_GROUPS[INV_BLOOD_GROUPS[i]] == i` |
| `Groups.LabelOf` | Backend/app.py:194 | the label of an index is a table label mapped back to that index |
| `Vote.Count` | Backend/app.py:178-179 | a count is at most the number of votes and zero iff the value does not occur |
| `Vote.MajorityVote` | Backend/app.py:178-189 | the result is a mode of the three votes (occurs, true count, none more frequent), count 1..3; unanimous gives count 3, three different give the chosen one with count 1 |
| `Vote.TwoOfThreeWins` | Backend/app.py:178-189 | any value occurring exactly twice wins with count 2 |
| `Vote.Confidence` | Backend/app.py:186-189 | the confidence is the winner's count divided by three, so one of 1/3, 2/3, 1 |
| `Vote.WinningLabel` | Backend/app.py:194 | the stored label is the table's name for the winning index |
| `Tables.EmptyIsValid` | Backend/app.py:24-46 | the freshly created tables satisfy the id and UNIQUE-email invariants |
| `Tables.InsertUser` | Backend/app.py:259-265 | appends one user with id one past the counter; keeps the invariants when the email is new |
| `Tables.InsertPrediction` | Backend/app.py:204-207 | appends one prediction with a fresh id and NULL actual group; keeps the invariants |
| `Tables.InsertTraining` | Backend/app.py:136-139 | appends one training row with a fresh id; keeps the invariants |
| `Tables.SetActual` | Backend/app.py:349-353 | sets the actual group on exactly the rows whose id equals the given one; every other row is unchanged |
| `Tables.FindPrediction` | Backend/app.py:356-357 | finds a row iff some row has the id |
| `History.OfUser` | Backend/app.py:293-296 | keeps exactly the rows of the table that have the user id |
| `History.OfUserCounts` | Backend/app.py:293-296 | the filter keeps every row of the user as often as the table holds it, and no other row |
| `History.Insert` | Backend/app.py:297 | inserting into a newest-first sequence keeps it newest first and adds exactly that row |
| `History.SortNewestFirst` | Backend/app.py:297 | the result is newest first and a permutation of the input |
| `History.CutKeepsNewest` | Backend/app.py:297-298 | a newest-first sequence cut after n rows stays newest first, and nothing cut off is newer than a row kept |
| `History.QueryLength` | Backend/app.py:293-299 | the query returns as many rows as the user has, but at most ten |
| `History.QueryNewestFirst` | Backend/app.py:297 | the returned rows are newest first |
| `History.QueryOnlyUser` | Backend/app.py:293-296 | every returned row is a row of the table with the requested user id |
| `History.QueryTakesEachRowOnce` | Backend/app.py:293-299 | no row is returned more often than the table holds it for that user |
| `History.QueryDropsNoNewer` | Backend/app.py:297-298 | whatever order SQLite gives equal dates, a row of the user left out is no newer than any row returned |
| `History.Entries` | Backend/app.py:304-313 | one entry per queried row, in the same order, at most ten |
| `History.HistoryLength` | Backend/app.py:293-313 | the reply has as many entries as the user has predictions, up to ten |
| `History.HistoryNewestFirst` | Backend/app.py:297-313 | the reply's entries are newest first |
| `History.HistoryOnlyUser` | Backend/app.py:293-313 | every entry comes from a prediction of the user |
| `History.HistoryDropsNoNewer` | Backend/app.py:297-313 | a prediction of the user that the reply leaves out is no newer than any entry in it |
| `Handlers.PredictStatus` | Backend/app.py:149-220 | 200 iff a prediction was made; 400 for a missing file or a rejected image; 500 when a step of the `try` raised |
| `Handlers.Predict` | Backend/app.py:150-220 | no file part: 400 and no change; a prediction is made iff there is a file, validation accepts the image and no later step of the `try` raises before the commit; a rejected image answers 400 with validation's message and a failing step 500 with the error's text, both leaving the database unchanged; on success exactly one row is appended with the voted label (a mode of the three outputs), its count, user id defaulting to 1 and NULL actual group; otherwise nothing changes; the users and training tables and their id counters are never touched |
| `Handlers.Signup` | Backend/app.py:249-284 | succeeds iff all fields are present and the email is new, appending exactly one row with an id above every existing id; otherwise 400 "Email already exists" and nothing changes; the other tables and their id counters are never touched; keeps the invariants |
| `Handlers.FindUser` | Backend/app.py:231-232 | finds a row iff some row matches both email and password, and the row found does |
| `Handlers.Login` | Backend/app.py:223-246 | succeeds iff some row matches both email and password, returning that row's id, name, email and member_since; otherwise 401 |
| `Handlers.LoginReturnsTheAccount` | Backend/app.py:231-244 | under the UNIQUE email, logging in with a row's credentials returns that row |
| `Handlers.SignupThenLogin` | Backend/app.py:249-277 | after a successful signup, login with the same credentials returns the new id, name, email and stored member_since |
| `Handlers.SignupTwiceRejected` | Backend/app.py:279-281 | a second signup with the same email is refused and changes nothing |
| `Handlers.HistoryOf` | Backend/app.py:287-313 | for the requested user (1 when absent): as many entries as the user has predictions, up to ten, newest first, each from a distinct row of that user's predictions (no row shown more often than the table holds it), and no prediction of the user left out is newer than an entry shown |
| `Handlers.RecordTrainingSample` | Backend/app.py:129-147 | without features nothing is written (the error is swallowed); with features exactly one training row is appended; nothing but the training table and its counter changes |
| `Handlers.Feedback` | Backend/app.py:338-370 | sets the actual group only on the row with the given id, all other rows, the other tables and every id counter unchanged, success reported either way; keeps the invariants |
| `Handlers.FeedbackAddsNoTrainingData` | Backend/app.py:355-362 | feedback never adds training data, and an unknown id leaves the database unchanged |

## Left out

- DOM rendering and UI plumbing are not modelled: templates, toasts as DOM nodes, the spinner, CSS, modals, tabs, `renderSection`, `updateNav`, `renderPredictionResult`, `showFeedbackForm`. They are presentation only.
- `provideFeedback`, `fetchUserHistory`, `fetchUserProfile`, `renderHistoryTab` and `renderProfileTab` are not modelled. They are consumers of the gateway. Their behaviour hinges on the field-name mismatches noted above, which are documented, not reconciled.
- The back end's `profile` handler is not part of this model.
- Asynchrony is not modelled: the mock's 500 ms delay, the `FileReader` load (taken as completed), the button's disabled state while a request is in flight, and the double-submit race. These are timing and concurrency.
- `validate_fingerprint_image`, `preprocess_image`, `extract_features`, saving the image and the INSERT are abstracted into `ImageCheck` and a file-name stamp. They are floating point and foreign libraries. `ImageCheck.Crashed` stands for any step of the `try` that raises before the commit, for instance `img.save` on an upload whose name has no known extension. The model does not say which inputs make a step raise.
- The three models are abstracted into `ModelOutputs`. They are foreign calls.
- Float formatting (`round(confidence, 2)`, `toFixed`) is not modelled. Confidence is kept as the vote count out of three, and the front end's 0.87 and 0.95 are kept as hundredths.
- Request bodies that are not a JSON object are not modelled; a request field is present or `None`. What happens to them depends on the Flask version. Before Flask 2.1, a body without a JSON content type makes `request.get_json()` return `None`, and the handler then fails with 500. From 2.1 on, `request.get_json()` itself refuses such a request with 400 or 415. Only a JSON `null` body still yields `None`, and the handler then fails with 500.
- The `user_id` form field is text. SQLite's INTEGER affinity turns numeric text into a number, and the model takes it as an integer. Non-numeric ids are not modelled.
- `JSON.parse` results other than `null` or a user object (numbers, arrays) are not modelled as values of the `user` global.
- `Backend/train_models.py` and `Backend/simple_function_app.py` are not modelled. The first is set-up scripting, the second returns constant JSON.
- Vote.MajorityVote: when the three votes all differ, the winner is the position named by the `tie` parameter, not `scipy.stats.mode`'s own rule.
- History.SortNewestFirst: rows with equal dates keep their rowid order. SQLite leaves that order open, so the lemmas about the query state only what every order satisfies.

=== FILE: api.dfy ===
/** The front-end's API gateway (`Frontend/script.js`): routing a logical
    endpoint to a full URL, the demo mock that answers every non-prediction
    endpoint, and the request wrapper that masks every prediction failure
    behind a fixed canned prediction.

    The network is not modelled: what `fetch` did is an input
    (`FetchOutcome`), and the result records which URL would have been
    fetched, so "never reaches the network" is a statement about that field. */
module Api {
  import opened Wrappers
  import opened Strings

  const LocalApi: string := "http://localhost:5000"
  const AzureFunctionApi: string := "https://bioblood-functions-ajgeg0e7hxhvcwg5.eastus-01.azurewebsites.net"

  /** The substring that marks a prediction request. */
  const PredictPath: string := "/predict"

  predicate IsPrediction(url: string) {
    Includes(url, PredictPath)
  }

  predicate IsLocalHost(hostname: string) {
    hostname == "localhost" || hostname == "127.0.0.1"
  }

  /** The two base URLs differ (at index 4, `:` against `s`), whatever follows them. */
  lemma BasesDiffer(endpoint: string)
    ensures LocalApi + endpoint != AzureFunctionApi + endpoint
  {
  }

  /** `getApiUrl`: prediction endpoints always go to the function app; any
      other endpoint goes to the local server exactly when the page is served
      from a local host name. */
  function GetApiUrl(endpoint: string, hostname: string): (url: string)
    ensures IsPrediction(endpoint) ==> url == AzureFunctionApi + endpoint
    ensures !IsPrediction(endpoint) ==> (url == LocalApi + endpoint <==> IsLocalHost(hostname))
    ensures url == LocalApi + endpoint || url == AzureFunctionApi + endpoint
  {
    BasesDiffer(endpoint);
    if IsPrediction(endpoint) then AzureFunctionApi + endpoint
    else if IsLocalHost(hostname) then LocalApi + endpoint
    else AzureFunctionApi + endpoint
  }

  /** The user object the front-end passes around; a `None` field is
      JavaScript's `undefined` (a request body that lacked the field). */
  datatype User = User(id: int, name: Option<string>, email: Option<string>)

  /** A request body after `JSON.parse`: field name to string value. */
  type Body = map<string, string>

  /** `body.key`: the field's value, or `undefined`. */
  function Field(body: Body, key: string): (v: Option<string>)
    ensures v.Some? <==> key in body
    ensures v.Some? ==> v.value == body[key]
  {
    if key in body then Some(body[key]) else None
  }

  /** One entry of the mock history; confidence is in hundredths. */
  datatype MockPrediction = MockPrediction(id: int, bloodGroup: string, confidencePercent: int, timestamp: string)

  datatype ModelVotes = ModelVotes(randomForest: string, svm: string, cnn: string)

  /** A prediction payload; confidence is in hundredths. */
  datatype Prediction = Prediction(bloodGroup: string, confidencePercent: int, models: ModelVotes)

  /** The successful replies (`success: true` in every one of them). */
  datatype Reply =
    | UserReply(user: User)
    | HistoryReply(predictions: seq<MockPrediction>)
    | FeedbackReply(message: string)
    | PredictionReply(prediction: Prediction)
    | Fetched(body: string)

  /** What a request can throw. */
  datatype ApiError =
    | EndpointNotFound
    | BodyNotJson
    | NetworkError(message: string)
    | ResponseNotJson(message: string)      // `response.json()` raised a syntax error
    | HttpError(status: int)

  const DemoUserName: string := "Demo User"
  const DemoEmail: string := "demo@example.com"
  const FeedbackMessage: string := "Feedback recorded"

  /** The canned prediction returned whenever the prediction service fails. */
  const Fallback: Prediction := Prediction("A+", 87, ModelVotes("A+", "A+", "A+"))

  /** The endpoints the mock knows. */
  datatype Endpoint = SignupRoute | LoginRoute | ProfileRoute | HistoryRoute | FeedbackRoute

  /** The mock's patterns in the order it tests them. */
  const MockRoutes: seq<(string, Endpoint)> := [
    ("/signup", SignupRoute),
    ("/login", LoginRoute),
    ("/profile", ProfileRoute),
    ("/history", HistoryRoute),
    ("/feedback", FeedbackRoute)
  ]

  /** Ordered dispatch as a reference: the endpoint of the first pattern in
      `routes` that `url` contains. */
  function FirstMatch(url: string, routes: seq<(string, Endpoint)>): (r: Option<Endpoint>)
    ensures r.None? <==> forall i | 0 <= i < |routes| :: !Includes(url, routes[i].0)
    ensures r.Some? ==> exists i | 0 <= i < |routes| ::
      && routes[i].1 == r.value
      && Includes(url, routes[i].0)
      && forall j | 0 <= j < i :: !Includes(url, routes[j].0)
  {
    if |routes| == 0 then None
    else if Includes(url, routes[0].0) then Some(routes[0].1)
    else
      var r := FirstMatch(url, routes[1..]);
      assert r.Some? ==> exists i | 0 <= i < |routes| ::
        && routes[i].1 == r.value
        && Includes(url, routes[i].0)
        && forall j | 0 <= j < i :: !Includes(url, routes[j].0)
      by {
        if r.Some? {
          var i :| 0 <= i < |routes[1..]| && routes[1..][i].1 == r.value && Includes(url, routes[1..][i].0)
                   && forall j | 0 <= j < i :: !Includes(url, routes[1..][j].0);
          assert forall j | 0 <= j < i + 1 :: !Includes(url, routes[j].0) by {
            forall j | 0 <= j < i + 1 ensures !Includes(url, routes[j].0) {
              if j > 0 {
                assert routes[j] == routes[1..][j - 1];
              }
            }
          }
        }
      }
      r
  }

  /** `mockApiRequest`: the canned reply for `url`. `now` stands for
      `Date.now()` and `isoNow` for `new Date().toISOString()`; a missing body
      is `JSON.parse(undefined)`, which throws. */
  function Mock(url: string, body: Option<Body>, now: int, isoNow: string): (r: Result<Reply, ApiError>)
    ensures Includes(url, "/signup") && body.Some? ==>
      r == Success(UserReply(User(now, Field(body.value, "name"), Field(body.value, "email"))))
    ensures !Includes(url, "/signup") && Includes(url, "/login") && body.Some? ==>
      r == Success(UserReply(User(1, Some(DemoUserName), Field(body.value, "email"))))
    ensures r.Failure? <==>
      (FirstMatch(url, MockRoutes).None? || (body.None? && FirstMatch(url, MockRoutes) in {Some(SignupRoute), Some(LoginRoute)}))
    ensures r.Failure? ==> r.error in {EndpointNotFound, BodyNotJson}
  {
    MockRoutesInOrder(url);
    if Includes(url, "/signup") then
      match body
      case None => Failure(BodyNotJson)
      case Some(b) => Success(UserReply(User(now, Field(b, "name"), Field(b, "email"))))
    else if Includes(url, "/login") then
      match body
      case None => Failure(BodyNotJson)
      case Some(b) => Success(UserReply(User(1, Some(DemoUserName), Field(b, "email"))))
    else if Includes(url, "/profile") then
      Success(UserReply(User(1, Some(DemoUserName), Some(DemoEmail))))
    else if Includes(url, "/history") then
      Success(HistoryReply([MockPrediction(1, "A+", 95, isoNow)]))
    else if Includes(url, "/feedback") then
      Success(FeedbackReply(FeedbackMessage))
    else
      Failure(EndpointNotFound)
  }

  /** Ordered dispatch over `MockRoutes`, spelled out pattern by pattern. */
  lemma MockRoutesInOrder(url: string)
    ensures FirstMatch(url, MockRoutes) ==
      if Includes(url, "/signup") then Some(SignupRoute)
      else if Includes(url, "/login") then Some(LoginRoute)
      else if Includes(url, "/profile") then Some(ProfileRoute)
      else if Includes(url, "/history") then Some(HistoryRoute)
      else if Includes(url, "/feedback") then Some(FeedbackRoute)
      else None
  {
    var r0 := MockRoutes;
    var r1 := r0[1..];
    var r2 := r1[1..];
    var r3 := r2[1..];
    var r4 := r3[1..];
    assert r0[0] == ("/signup", SignupRoute);
    assert r1[0] == ("/login", LoginRoute);
    assert r2[0] == ("/profile", ProfileRoute);
    assert r3[0] == ("/history", HistoryRoute);
    assert r4[0] == ("/feedback", FeedbackRoute);
    assert r4[1..] == [];
    assert FirstMatch(url, r4[1..]) == None;
  }

  /** The mock's chain of tests is the ordered dispatch over `MockRoutes`:
      the reply is the one of the first pattern the URL contains. */
  lemma MockFollowsFirstMatch(url: string, body: Option<Body>, now: int, isoNow: string)
    ensures var r := Mock(url, body, now, isoNow);
      match FirstMatch(url, MockRoutes)
      case None => r == Failure(EndpointNotFound)
      case Some(SignupRoute) => body.Some? ==> r.Success? && r.value.UserReply? && r.value.user.id == now
      case Some(LoginRoute) => body.Some? ==> r.Success? && r.value.UserReply? && r.value.user.id == 1
      case Some(ProfileRoute) => r == Success(UserReply(User(1, Some(DemoUserName), Some(DemoEmail))))
      case Some(HistoryRoute) => r.Success? && r.value.HistoryReply?
      case Some(FeedbackRoute) => r == Success(FeedbackReply(FeedbackMessage))
  {
    MockRoutesInOrder(url);
  }

  /** The `try` block of `apiRequest`, before its `catch`: which URL it
      fetches, and its value or thrown error. */
  function Attempt(url: string, body: Option<Body>, hostname: string, now: int, isoNow: string,
                   outcome: FetchOutcome): (r: (Option<string>, Result<Reply, ApiError>))
    ensures !IsPrediction(url) ==> r == (None, Mock(url, body, now, isoNow))
    ensures IsPrediction(url) ==> r.0 == Some(if StartsWith(url, "http") then url else GetApiUrl(url, hostname))
    ensures IsPrediction(url) ==> (r.1.Failure? <==> outcome.Throws? || (outcome.Unparsable? && outcome.ok))
    ensures IsPrediction(url) && outcome.Ok? ==> r.1 == Success(Fetched(outcome.text))
    ensures IsPrediction(url) && (outcome.NotOk? || (outcome.Unparsable? && !outcome.ok)) ==>
      r.1 == Success(PredictionReply(Fallback))
  {
    if !IsPrediction(url) then (None, Mock(url, body, now, isoNow))
    else
      var fullUrl := if StartsWith(url, "http") then url else GetApiUrl(url, hostname);
      var result := match outcome
        case Throws(message) => Failure(NetworkError(message))
        case Unparsable(true, _, message) => Failure(ResponseNotJson(message))
        case Ok(text) => Success(Fetched(text))
        // `!response.ok`: this URL contains `/predict`, so the fallback is
        // returned and the rethrow after it cannot be reached.
        case NotOk(status, _) =>
          if IsPrediction(url) then Success(PredictionReply(Fallback))
          else assert false; Failure(HttpError(status))
        case Unparsable(false, status, _) =>
          if IsPrediction(url) then Success(PredictionReply(Fallback))
          else assert false; Failure(HttpError(status));
      (Some(fullUrl), result)
  }

  /** What `fetch` did: an ok response whose body parsed, a non-ok response
      (with the `error` field of its body, if any), a response whose body was
      not JSON, or a rejected promise. */
  datatype FetchOutcome =
    | Ok(text: string)
    | NotOk(status: int, error: Option<string>)
    | Unparsable(ok: bool, status: int, message: string)
    | Throws(message: string)

  /** The outcome of one `apiRequest`: the URL fetched (`None`: no network
      traffic) and the value returned or the error thrown. */
  datatype ApiCall = ApiCall(fetched: Option<string>, result: Result<Reply, ApiError>)

  /** `apiRequest`: the `try` block, then the `catch` that turns any error of a
      prediction request into the fallback and rethrows every other error. */
  function ApiRequest(url: string, body: Option<Body>, hostname: string, now: int, isoNow: string,
                      outcome: FetchOutcome): (r: ApiCall)
    ensures !IsPrediction(url) ==> r == ApiCall(None, Mock(url, body, now, isoNow))
    ensures IsPrediction(url) ==> r.result.Success?
    ensures IsPrediction(url) ==>
      r.fetched == Some(if StartsWith(url, "http") then url else GetApiUrl(url, hostname))
    ensures IsPrediction(url) && outcome.Ok? ==> r.result.value == Fetched(outcome.text)
    ensures IsPrediction(url) && !outcome.Ok? ==> r.result.value == PredictionReply(Fallback)
  {
    var (fetched, attempt) := Attempt(url, body, hostname, now, isoNow, outcome);
    var result := match attempt
      case Success(reply) => Success(reply)
      case Failure(error) =>
        if IsPrediction(url) then Success(PredictionReply(Fallback)) else Failure(error);
    ApiCall(fetched, result)
  }

  /** A prediction request never throws: whatever the network does, the caller
      gets either the service's answer or the fallback. */
  lemma PredictionNeverFails(url: string, body: Option<Body>, hostname: string, now: int, isoNow: string,
                             outcome: FetchOutcome)
    requires IsPrediction(url)
    ensures var r := ApiRequest(url, body, hostname, now, isoNow, outcome);
      r.result.Success? && (r.result.value.Fetched? || r.result.value == PredictionReply(Fallback))
  {
  }

  /** The end-to-end example: logging in as `a@b.com` through the mock yields
      the demo user with that email, and no network traffic. */
  lemma LoginExample(hostname: string, now: int, isoNow: string, outcome: FetchOutcome)
    ensures ApiRequest("/api/login", Some(map["email" := "a@b.com", "password" := "x"]), hostname, now, isoNow, outcome)
         == ApiCall(None, Success(UserReply(User(1, Some(DemoUserName), Some("a@b.com")))))
  {
    MissingCharExcludes("/api/login", PredictPath, 'r');
    MissingCharExcludes("/api/login", "/signup", 's');
    assert OccursAt("/api/login", "/login", 4);
  }

  /** A URL matching no pattern makes the request throw "Endpoint not found",
      again without network traffic. */
  lemma UnknownEndpointThrows(url: string, body: Option<Body>, hostname: string, now: int, isoNow: string,
                              outcome: FetchOutcome)
    requires !IsPrediction(url)
    requires forall i | 0 <= i < |MockRoutes| :: !Includes(url, MockRoutes[i].0)
    ensures ApiRequest(url, body, hostname, now, isoNow, outcome) == ApiCall(None, Failure(EndpointNotFound))
  {
    MockFollowsFirstMatch(url, body, now, isoNow);
  }
}

=== FILE: blood_groups.dfy ===
/** The blood-group label table of the back end (`Backend/app.py`):
    `BLOOD_GROUPS` maps the eight ABO/Rh labels to the class indices the
    models predict, and `INV_BLOOD_GROUPS` is built from it by swapping each
    pair. */
module Groups {

  /** A class index the models can output. */
  type GroupIndex = i: int | 0 <= i < 8

  const BloodGroups: map<string, int> := map[
    "A+" := 0, "A-" := 1, "B+" := 2, "B-" := 3,
    "O+" := 4, "O-" := 5, "AB+" := 6, "AB-" := 7
  ]

  /** No two keys share a value. */
  ghost predicate Injective<K, V>(m: map<K, V>) {
    forall a, b | a in m && b in m && a != b :: m[a] != m[b]
  }

  /** The dictionary comprehension `{v: k for k, v in m.items()}`. */
  function Invert<K, V>(m: map<K, V>): (inv: map<V, K>)
    requires Injective(m)
    ensures forall k | k in m :: m[k] in inv && inv[m[k]] == k
    ensures forall v | v in inv :: inv[v] in m && m[inv[v]] == v
    ensures inv.Keys == m.Values
  {
    var inv := map k | k in m :: m[k] := k;
    assert forall v | v in inv :: inv[v] in m && m[inv[v]] == v by {
      forall v | v in inv ensures inv[v] in m && m[inv[v]] == v {
        var k :| k in m && m[k] == v;
        assert inv[m[k]] == k;
      }
    }
    inv
  }

  /** `INV_BLOOD_GROUPS`. */
  const InvBloodGroups: map<int, string> := (TableIsBijective(); Invert(BloodGroups))

  /** The eight labels in the order the front-end's feedback selector lists them. */
  const Labels: seq<string> := ["A+", "A-", "B+", "B-", "O+", "O-", "AB+", "AB-"]

  /** The label of a class index. */
  function LabelOf(i: GroupIndex): (name: string)
    ensures name in BloodGroups && BloodGroups[name] == i
    ensures InvBloodGroups[i] == name
  {
    InverseIsTotal();
    InverseBothWays();
    InvBloodGroups[i]
  }

  /** The table holds exactly the eight labels of `Labels`, each mapped to
      its position there; in particular no label is listed twice. */
  lemma LabelsAreTheTable()
    ensures BloodGroups.Keys == set name | name in Labels
    ensures forall i | 0 <= i < |Labels| :: Labels[i] in BloodGroups && BloodGroups[Labels[i]] == i
    ensures forall i, j | 0 <= i < j < |Labels| :: Labels[i] != Labels[j]
  {
  }

  /** The indices are exactly 0..7 and no two labels share one. */
  lemma TableIsBijective()
    ensures forall i: int :: 0 <= i < 8 <==> i in BloodGroups.Values
    ensures Injective(BloodGroups)
  {
    LabelsAreTheTable();
    forall i: int | 0 <= i < 8 ensures i in BloodGroups.Values {
      assert BloodGroups[Labels[i]] == i;
    }
  }

  /** The inverse is defined on every index 0..7 and nowhere else. */
  lemma InverseIsTotal()
    ensures forall i: int :: 0 <= i < 8 <==> i in InvBloodGroups
  {
    TableIsBijective();
  }

  /** `INV_BLOOD_GROUPS` undoes `BLOOD_GROUPS`, in both directions. */
  lemma InverseBothWays()
    ensures forall name | name in BloodGroups :: BloodGroups[name] in InvBloodGroups && InvBloodGroups[BloodGroups[name]] == name
    ensures forall i | i in InvBloodGroups :: InvBloodGroups[i] in BloodGroups && BloodGroups[InvBloodGroups[i]] == i
  {
  }
}

=== FILE: handlers.dfy ===
/** The back end's request handlers (`Backend/app.py`) as transitions of the
    database value: `predict`, `signup`, `login`, `history` and `feedback`.
    Clocks, the upload's file name stamp, the image checks and the three
    models are parameters; a JSON field the request lacked is `None`. */
module Handlers {
  import opened Wrappers
  import opened Strings
  import opened Groups
  import opened Vote
  import opened Tables
  import History

  // ---------------------------------------------------------------- predict

  /** How the `try` block of `predict` went, up to the commit: the image
      passed validation and every later step (preprocessing, the three
      models, saving the image, the INSERT) went through; validation
      rejected it (400); or some step raised (500), for instance opening a
      file that is no image, or saving an upload whose name has no known
      extension. */
  datatype ImageCheck = Accepted | Rejected(message: string) | Crashed(message: string)

  /** The class indices the random forest, the SVM and the CNN output, and
      the position `mode` picks when all three differ. */
  datatype ModelOutputs = ModelOutputs(rf: GroupIndex, svm: GroupIndex, cnn: GroupIndex, tie: nat)

  datatype PredictReply =
    | NoFile                                  // 400 "No file uploaded"
    | InvalidImage(message: string)           // 400
    | PredictFailed(message: string)          // 500
    | Predicted(bloodGroup: string, votes: nat)

  /** The HTTP status `predict` answers with. */
  function PredictStatus(r: PredictReply): (code: int)
    ensures code == 200 <==> r.Predicted?
    ensures r.NoFile? || r.InvalidImage? ==> code == 400
    ensures r.PredictFailed? ==> code == 500
  {
    match r
    case NoFile => 400
    case InvalidImage(_) => 400
    case PredictFailed(_) => 500
    case Predicted(_, _) => 200
  }

  /** `predict`: `filename` is the `file` part's name (`None`: no such part),
      `userId` the `user_id` form field (1 when absent),
      `stamp` the upload time as formatted into the saved file's name and
      `now` the prediction date. */
  function Predict(db: Db, filename: Option<string>, userId: Option<int>, check: ImageCheck,
                   outputs: ModelOutputs, stamp: string, now: string): (r: (Db, PredictReply))
    requires outputs.tie < 3
    ensures filename.None? ==> r == (db, NoFile) && PredictStatus(r.1) == 400
    ensures filename.Some? && check.Rejected? ==> r == (db, InvalidImage(check.message))
    ensures filename.Some? && check.Crashed? ==> r == (db, PredictFailed(check.message))
    ensures r.1.Predicted? <==> filename.Some? && check.Accepted?
    ensures !r.1.Predicted? ==> r.0 == db
    ensures r.1.Predicted? ==>
      && r.1.bloodGroup in BloodGroups
      && IsMode([outputs.rf, outputs.svm, outputs.cnn], Ballot(BloodGroups[r.1.bloodGroup], r.1.votes))
      && r.0.users == db.users && r.0.training == db.training
      && r.0.predictions == db.predictions + [PredictionRow(
           db.predictionSeq + 1, userId.GetOr(1), "uploads/" + stamp + "_" + filename.value,
           r.1.bloodGroup, r.1.votes, None, now)]
    ensures r.0 == db.(predictions := r.0.predictions, predictionSeq := r.0.predictionSeq)
    ensures Valid(db) ==> Valid(r.0)
  {
    match filename
    case None => (db, NoFile)
    case Some(name) =>
      match check
      case Rejected(message) => (db, InvalidImage(message))
      case Crashed(message) => (db, PredictFailed(message))
      case Accepted =>
        var ballot := MajorityVote(outputs.rf, outputs.svm, outputs.cnn, outputs.tie);
        var group := WinningLabel(ballot);
        var path := "uploads/" + stamp + "_" + name;
        (InsertPrediction(db, userId.GetOr(1), path, group, ballot.count, now), Predicted(group, ballot.count))
  }

  // ----------------------------------------------------------------- signup

  datatype SignupReply =
    | SignedUp(id: int, name: string, email: string, memberSince: string)
    | SignupRejected(error: string)           // 400

  const EmailExistsError: string := "Email already exists"

  /** `signup`. A missing field breaks a NOT NULL constraint and a known
      email the UNIQUE one; both raise `IntegrityError`, reported as "Email
      already exists". `insertedAt` is the stored `member_since`,
      `repliedAt` the second clock reading the reply carries. */
  function Signup(db: Db, name: Option<string>, email: Option<string>, password: Option<string>,
                  insertedAt: string, repliedAt: string): (r: (Db, SignupReply))
    ensures r.1.SignedUp? <==> name.Some? && email.Some? && password.Some? && !EmailTaken(db.users, email.value)
    ensures r.1.SignupRejected? ==> r == (db, SignupRejected(EmailExistsError))
    ensures r.1.SignedUp? ==>
      && r.0.users == db.users + [UserRow(r.1.id, name.value, email.value, password.value, insertedAt)]
      && r.1 == SignedUp(r.1.id, name.value, email.value, repliedAt)
      && r.0.predictions == db.predictions && r.0.training == db.training
    ensures r.0 == db.(users := r.0.users, userSeq := r.0.userSeq)
    ensures r.1.SignedUp? && Valid(db) ==> forall u | u in db.users :: u.id < r.1.id
    ensures Valid(db) ==> Valid(r.0)
  {
    if name.None? || email.None? || password.None? || EmailTaken(db.users, email.value) then
      (db, SignupRejected(EmailExistsError))
    else
      var id := db.userSeq + 1;
      (InsertUser(db, name.value, email.value, password.value, insertedAt),
       SignedUp(id, name.value, email.value, repliedAt))
  }

  // ------------------------------------------------------------------ login

  datatype LoginReply =
    | LoggedIn(id: int, name: string, email: string, memberSince: string)
    | InvalidCredentials                      // 401, success: false

  /** The first user row whose email and password both match, as `login` looks it up. */
  function FindUser(users: seq<UserRow>, email: string, password: string): (r: Option<UserRow>)
    ensures r.Some? <==> exists i | 0 <= i < |users| :: users[i].email == email && users[i].password == password
    ensures r.Some? ==> r.value in users && r.value.email == email && r.value.password == password
  {
    if |users| == 0 then None
    else if users[0].email == email && users[0].password == password then Some(users[0])
    else
      var r := FindUser(users[1..], email, password);
      assert (exists i | 0 <= i < |users| :: users[i].email == email && users[i].password == password) ==> r.Some? by {
        if exists i | 0 <= i < |users| :: users[i].email == email && users[i].password == password {
          var i :| 0 <= i < |users| && users[i].email == email && users[i].password == password;
          assert users[1..][i - 1] == users[i];
        }
      }
      r
  }

  /** `login`. A missing email or password is compared as NULL, which
      matches no row. */
  function Login(db: Db, email: Option<string>, password: Option<string>): (r: LoginReply)
    ensures r.LoggedIn? <==> (email.Some? && password.Some? &&
      exists i | 0 <= i < |db.users| :: db.users[i].email == email.value && db.users[i].password == password.value)
    ensures r.LoggedIn? ==> exists u | u in db.users ::
      && u.email == email.value && u.password == password.value
      && r == LoggedIn(u.id, u.name, u.email, u.memberSince)
  {
    if email.None? || password.None? then InvalidCredentials
    else
      match FindUser(db.users, email.value, password.value)
      case None => InvalidCredentials
      case Some(u) => LoggedIn(u.id, u.name, u.email, u.memberSince)
  }

  /** Under the UNIQUE email, a successful login returns the one row with
      that email. */
  lemma LoginReturnsTheAccount(db: Db, u: UserRow)
    requires Valid(db) && u in db.users
    ensures Login(db, Some(u.email), Some(u.password)) == LoggedIn(u.id, u.name, u.email, u.memberSince)
  {
  }

  /** A signup that succeeds can log in straight away with the same
      credentials, and gets the new id back. */
  lemma SignupThenLogin(db: Db, name: string, email: string, password: string, insertedAt: string, repliedAt: string)
    requires Valid(db) && !EmailTaken(db.users, email)
    ensures var (db', reply) := Signup(db, Some(name), Some(email), Some(password), insertedAt, repliedAt);
      reply.SignedUp? && Login(db', Some(email), Some(password)) == LoggedIn(reply.id, name, email, insertedAt)
  {
    var (db', reply) := Signup(db, Some(name), Some(email), Some(password), insertedAt, repliedAt);
    LoginReturnsTheAccount(db', db'.users[|db'.users| - 1]);
  }

  /** A second signup with the same email is refused and changes nothing. */
  lemma SignupTwiceRejected(db: Db, name: string, email: string, password: string, name2: Option<string>,
                            password2: Option<string>, t1: string, t2: string, t3: string, t4: string)
    ensures var (db', _) := Signup(db, Some(name), Some(email), Some(password), t1, t2);
      Signup(db', name2, Some(email), password2, t3, t4) == (db', SignupRejected(EmailExistsError))
  {
    var (db', reply) := Signup(db, Some(name), Some(email), Some(password), t1, t2);
    assert EmailTaken(db'.users, email) by {
      if reply.SignedUp? {
        assert db'.users[|db'.users| - 1].email == email;
      }
    }
  }

  // ---------------------------------------------------------------- history

  /** `history`: a missing `user_id` query argument means user 1. */
  function HistoryOf(db: Db, userId: Option<int>): (h: seq<History.Entry>)
    ensures |h| == History.Min(History.Limit, |History.OfUser(db.predictions, userId.GetOr(1))|)
    ensures forall i, j | 0 <= i < j < |h| :: LexLe(h[j].date, h[i].date)
    ensures forall e | e in h :: exists p | p in db.predictions :: p.userId == userId.GetOr(1) && e == History.ToEntry(p)
    ensures forall p: PredictionRow, i: int |
      p in db.predictions && p.userId == userId.GetOr(1) && History.ToEntry(p) !in h && 0 <= i < |h| ::
        LexLe(p.date, h[i].date)
    ensures exists q: seq<PredictionRow> ::
      && |q| == |h|
      && (forall i | 0 <= i < |q| :: h[i] == History.ToEntry(q[i]))
      && multiset(q) <= multiset(History.OfUser(db.predictions, userId.GetOr(1)))
  {
    var q := History.Query(db.predictions, userId.GetOr(1));
    History.QueryTakesEachRowOnce(db.predictions, userId.GetOr(1));
    History.HistoryLength(db, userId.GetOr(1));
    History.HistoryNewestFirst(db, userId.GetOr(1));
    History.HistoryOnlyUser(db, userId.GetOr(1));
    History.HistoryDropsNoNewer(db, userId.GetOr(1));
    History.Entries(db, userId.GetOr(1))
  }

  // --------------------------------------------------------------- feedback

  /** `update_models_with_new_data(image_path, actual, features)`: with no
      feature array, `features.tolist()` raises inside the `try`, the error is
      printed and swallowed, and no row is written. */
  function RecordTrainingSample(db: Db, imagePath: string, actual: Option<string>,
                                features: Option<seq<int>>, now: string): (r: Db)
    ensures features.None? ==> r == db
    ensures features.Some? ==> r.training == db.training + [TrainingRow(db.trainingSeq + 1, imagePath, actual, features.value, now)]
    ensures r == db.(training := r.training, trainingSeq := r.trainingSeq)
  {
    match features
    case None => db
    case Some(f) => InsertTraining(db, imagePath, actual, f, now)
  }

  /** `{'success': True, 'message': 'Feedback recorded for model improvement'}`. */
  datatype FeedbackReply = FeedbackRecorded

  /** `feedback`: sets the actual blood group of the prediction with the
      given id, then hands the row to the training-data step with no
      features. It reports success whether or not such a row exists. */
  function Feedback(db: Db, predictionId: Option<int>, actual: Option<string>, now: string): (r: (Db, FeedbackReply))
    ensures |r.0.predictions| == |db.predictions|
    ensures forall i | 0 <= i < |db.predictions| ::
      r.0.predictions[i] == if predictionId == Some(db.predictions[i].id)
                            then db.predictions[i].(actual := actual) else db.predictions[i]
    ensures r.0 == db.(predictions := r.0.predictions)
    ensures Valid(db) ==> Valid(r.0)
  {
    var updated := db.(predictions := SetActual(db.predictions, predictionId, actual));
    var after := match FindPrediction(updated.predictions, predictionId)
      case Some(row) => RecordTrainingSample(updated, row.imagePath, actual, None, now)
      case None => updated;
    (after, FeedbackRecorded)
  }

  /** Feedback never adds training data, and an id no prediction has leaves
      the whole database as it was. */
  lemma FeedbackAddsNoTrainingData(db: Db, predictionId: Option<int>, actual: Option<string>, now: string)
    ensures Feedback(db, predictionId, actual, now).0.training == db.training
    ensures (forall p | p in db.predictions :: predictionId != Some(p.id)) ==> Feedback(db, predictionId, actual, now).0 == db
  {
  }
}

=== FILE: history.dfy ===
/** The query behind the back end's `history` (`Backend/app.py`): the
    predictions of one user, latest prediction date first, at most ten.

    Dates are TEXT and compare as strings. SQLite leaves the order of rows
    with equal dates open; the model keeps them in rowid order, and the
    lemmas about `Query` state only what every admissible order satisfies. */
module History {
  import opened Strings
  import opened Tables

  /** The most rows `history` returns. */
  const Limit: nat := 10

  function Min(a: nat, b: nat): nat {
    if a <= b then a else b
  }

  /** The rows of one user, in rowid order (`WHERE user_id = ?`). */
  function OfUser(rows: seq<PredictionRow>, userId: int): (r: seq<PredictionRow>)
    ensures forall p | p in r :: p in rows && p.userId == userId
    ensures forall p | p in rows && p.userId == userId :: p in r
  {
    if |rows| == 0 then []
    else if rows[0].userId == userId then [rows[0]] + OfUser(rows[1..], userId)
    else OfUser(rows[1..], userId)
  }

  /** The filter keeps every row of the user as often as the table holds
      it, and no other row. */
  lemma {:induction false} OfUserCounts(rows: seq<PredictionRow>, userId: int)
    ensures forall p :: multiset(OfUser(rows, userId))[p] == if p.userId == userId then multiset(rows)[p] else 0
  {
    if |rows| > 0 {
      OfUserCounts(rows[1..], userId);
      assert rows == [rows[0]] + rows[1..];
    }
  }

  /** Newest first: no row is newer than one before it. */
  ghost predicate NewestFirst(rows: seq<PredictionRow>) {
    forall i, j | 0 <= i < j < |rows| :: LexLe(rows[j].date, rows[i].date)
  }

  /** A row no older than every row of a newest-first sequence can go in front. */
  lemma PrependKeepsOrder(x: PredictionRow, rows: seq<PredictionRow>)
    requires NewestFirst(rows)
    requires forall p | p in rows :: LexLe(p.date, x.date)
    ensures NewestFirst([x] + rows)
  {
  }

  /** In a newest-first sequence, a row no older than the head is no older
      than any row. */
  lemma HeadBoundsAll(x: PredictionRow, rows: seq<PredictionRow>)
    requires NewestFirst(rows) && |rows| > 0 && LexLe(rows[0].date, x.date)
    ensures forall p | p in rows :: LexLe(p.date, x.date)
  {
    forall p | p in rows ensures LexLe(p.date, x.date) {
      var j :| 0 <= j < |rows| && rows[j] == p;
      if j > 0 {
        LexTransitive(rows[j].date, rows[0].date, x.date);
      }
    }
  }

  /** The head of a newest-first sequence is no older than the rest. */
  lemma HeadIsNewest(rows: seq<PredictionRow>)
    requires NewestFirst(rows) && |rows| > 0
    ensures forall p | p in rows[1..] :: LexLe(p.date, rows[0].date)
  {
  }

  /** Puts `x` in front of the first row strictly older than it. */
  function Insert(x: PredictionRow, rows: seq<PredictionRow>): (r: seq<PredictionRow>)
    requires NewestFirst(rows)
    ensures NewestFirst(r)
    ensures multiset(r) == multiset(rows) + multiset{x}
    ensures forall p | p in r :: p in rows || p == x
  {
    if |rows| == 0 then [x]
    else if LexLe(rows[0].date, x.date) then
      HeadBoundsAll(x, rows);
      PrependKeepsOrder(x, rows);
      [x] + rows
    else
      var rest := Insert(x, rows[1..]);
      LexTotal(rows[0].date, x.date);
      HeadIsNewest(rows);
      PrependKeepsOrder(rows[0], rest);
      assert rows == [rows[0]] + rows[1..];
      [rows[0]] + rest
  }

  /** `ORDER BY prediction_date DESC`. */
  function SortNewestFirst(rows: seq<PredictionRow>): (r: seq<PredictionRow>)
    ensures NewestFirst(r)
    ensures multiset(r) == multiset(rows)
  {
    if |rows| == 0 then []
    else
      assert rows == [rows[0]] + rows[1..];
      Insert(rows[0], SortNewestFirst(rows[1..]))
  }

  /** The query: the user's rows, newest first, at most `Limit` of them. */
  function Query(rows: seq<PredictionRow>, userId: int): seq<PredictionRow>
  {
    var sorted := SortNewestFirst(OfUser(rows, userId));
    sorted[..Min(Limit, |sorted|)]
  }

  /** Cutting a newest-first sequence after `n` rows keeps it newest
      first, and no row cut off is newer than a row kept. */
  lemma CutKeepsNewest(sorted: seq<PredictionRow>, n: nat)
    requires NewestFirst(sorted) && n <= |sorted|
    ensures NewestFirst(sorted[..n])
    ensures forall p: PredictionRow, i: int | p in sorted[n..] && 0 <= i < n :: LexLe(p.date, sorted[i].date)
  {
  }

  /** The query returns as many rows as the user has, up to ten. */
  lemma QueryLength(rows: seq<PredictionRow>, userId: int)
    ensures |Query(rows, userId)| == Min(Limit, |OfUser(rows, userId)|)
  {
    var mine := OfUser(rows, userId);
    assert |multiset(SortNewestFirst(mine))| == |multiset(mine)|;
  }

  /** The query's rows are newest first. */
  lemma QueryNewestFirst(rows: seq<PredictionRow>, userId: int)
    ensures NewestFirst(Query(rows, userId))
  {
    var sorted := SortNewestFirst(OfUser(rows, userId));
    CutKeepsNewest(sorted, Min(Limit, |sorted|));
  }

  /** The query returns rows of the table that belong to the user, and no
      other rows. */
  lemma QueryOnlyUser(rows: seq<PredictionRow>, userId: int)
    ensures forall p | p in Query(rows, userId) :: p in rows && p.userId == userId
  {
    var mine := OfUser(rows, userId);
    var sorted := SortNewestFirst(mine);
    forall p | p in Query(rows, userId) ensures p in rows && p.userId == userId {
      assert p in multiset(sorted);
    }
  }

  /** The query holds each row at most as often as the user's rows do. */
  lemma QueryTakesEachRowOnce(rows: seq<PredictionRow>, userId: int)
    ensures forall p :: multiset(Query(rows, userId))[p] <= multiset(OfUser(rows, userId))[p]
  {
    var sorted := SortNewestFirst(OfUser(rows, userId));
    var n := Min(Limit, |sorted|);
    assert sorted == sorted[..n] + sorted[n..];
  }

  /** Whatever order SQLite gives equal dates, a row of the user that the
      query leaves out is no newer than any row it returns. */
  lemma QueryDropsNoNewer(rows: seq<PredictionRow>, userId: int)
    ensures var q := Query(rows, userId);
      forall p: PredictionRow, i: int | p in rows && p.userId == userId && p !in q && 0 <= i < |q| ::
        LexLe(p.date, q[i].date)
  {
    var sorted := SortNewestFirst(OfUser(rows, userId));
    var n := Min(Limit, |sorted|);
    var q := sorted[..n];
    CutKeepsNewest(sorted, n);
    forall p: PredictionRow, i: int | p in rows && p.userId == userId && p !in q && 0 <= i < |q|
      ensures LexLe(p.date, q[i].date)
    {
      assert p in multiset(sorted);
      assert sorted == q + sorted[n..];
      assert p in sorted[n..];
    }
  }

  /** One entry of the reply: `{date, result, confidence, image_path}`. */
  datatype Entry = Entry(date: string, result: string, votes: nat, imagePath: string)

  function ToEntry(p: PredictionRow): Entry {
    Entry(p.date, p.predicted, p.votes, p.imagePath)
  }

  /** `history`: the query's rows as entries, in the same order. */
  function Entries(db: Db, userId: int): (h: seq<Entry>)
    ensures |h| == |Query(db.predictions, userId)| <= Limit
    ensures forall i | 0 <= i < |h| :: h[i] == ToEntry(Query(db.predictions, userId)[i])
  {
    var q := Query(db.predictions, userId);
    seq(|q|, i requires 0 <= i < |q| => ToEntry(q[i]))
  }

  /** The reply has as many entries as the user has predictions, up to ten. */
  lemma HistoryLength(db: Db, userId: int)
    ensures |Entries(db, userId)| == Min(Limit, |OfUser(db.predictions, userId)|)
  {
    QueryLength(db.predictions, userId);
  }

  /** The reply's entries are newest first. */
  lemma HistoryNewestFirst(db: Db, userId: int)
    ensures var h := Entries(db, userId);
      forall i, j | 0 <= i < j < |h| :: LexLe(h[j].date, h[i].date)
  {
    QueryNewestFirst(db.predictions, userId);
  }

  /** Every entry of the reply comes from a prediction of the user. */
  lemma HistoryOnlyUser(db: Db, userId: int)
    ensures forall e | e in Entries(db, userId) ::
      exists p | p in db.predictions :: p.userId == userId && e == ToEntry(p)
  {
    var h := Entries(db, userId);
    var q := Query(db.predictions, userId);
    QueryOnlyUser(db.predictions, userId);
    forall e | e in h ensures exists p | p in db.predictions :: p.userId == userId && e == ToEntry(p) {
      var i :| 0 <= i < |h| && h[i] == e;
      assert q[i] in q;
    }
  }

  /** A prediction of the user that the reply leaves out is no newer than
      any entry it carries. */
  lemma HistoryDropsNoNewer(db: Db, userId: int)
    ensures var h := Entries(db, userId);
      forall p: PredictionRow, i: int | p in db.predictions && p.userId == userId && ToEntry(p) !in h && 0 <= i < |h| ::
        LexLe(p.date, h[i].date)
  {
    var h := Entries(db, userId);
    var q := Query(db.predictions, userId);
    QueryDropsNoNewer(db.predictions, userId);
    forall p | p in q ensures ToEntry(p) in h {
      var k :| 0 <= k < |q| && q[k] == p;
      assert h[k] == ToEntry(p);
    }
  }
}

=== FILE: session.dfy ===
/** The front-end session store (`Frontend/script.js`): the in-memory `user`
    and `isLoggedIn` globals mirrored into the browser's string key/value
    storage. JSON is an abstract serialiser (`Codec`); the properties that
    need parse-after-stringify to give the object back say so with
    `Lawful`. */
module Session {
  import opened Wrappers
  import Api

  /** The storage key of the serialised user object. */
  const UserKey: string := "user"
  /** The storage key of the logged-in marker. */
  const LoginKey: string := "isLoggedIn"

  type Storage = map<string, string>

  /** The value of the `user` global: `null`, or a user object. */
  datatype Js = JsNull | JsUser(u: Api.User)

  /** What `JSON.parse` makes of a stored string: a value, or a thrown error. */
  datatype Parsed = SyntaxError(message: string) | Value(v: Js)

  /** `JSON.stringify` of a user object and `JSON.parse` of a stored string. */
  datatype Codec = Codec(stringify: Api.User -> string, parse: string -> Parsed)

  /** The serialiser laws the round trip needs: a serialised user object is
      never the empty string (it starts with `{`), and parsing it gives the
      same object back. */
  ghost predicate Lawful(c: Codec) {
    forall u :: c.stringify(u) != "" && c.parse(c.stringify(u)) == Value(JsUser(u))
  }

  /** The page's session state: the two globals and the durable storage. */
  datatype Client = Client(user: Js, isLoggedIn: bool, storage: Storage)

  /** The state right after a page load, before `loadUserSession` runs. */
  function Fresh(storage: Storage): (cl: Client)
    ensures cl.storage == storage && !cl.isLoggedIn && cl.user == JsNull
  {
    Client(JsNull, false, storage)
  }

  /** The storage holds a non-empty user blob and the marker is exactly "true"
      (`savedUser && savedLogin === 'true'`). */
  predicate Restorable(storage: Storage) {
    && UserKey in storage && storage[UserKey] != ""
    && LoginKey in storage && storage[LoginKey] == "true"
  }

  /** Keys other than the two session keys. */
  predicate OtherKeysUnchanged(before: Storage, after: Storage) {
    after - {UserKey, LoginKey} == before - {UserKey, LoginKey}
  }

  /** `saveUserSession(u)`. */
  function Save(cl: Client, c: Codec, u: Api.User): (r: Client)
    ensures r.user == JsUser(u) && r.isLoggedIn
    ensures UserKey in r.storage && r.storage[UserKey] == c.stringify(u)
    ensures LoginKey in r.storage && r.storage[LoginKey] == "true"
    ensures OtherKeysUnchanged(cl.storage, r.storage)
  {
    Client(JsUser(u), true, cl.storage[UserKey := c.stringify(u)][LoginKey := "true"])
  }

  /** `loadUserSession()`: restores the globals from storage when the storage
      is restorable; a blob `JSON.parse` rejects makes it throw. */
  function Load(cl: Client, c: Codec): (r: Result<Client, string>)
    ensures !Restorable(cl.storage) ==> r == Success(cl)
    ensures Restorable(cl.storage) ==> (r.Success? <==> c.parse(cl.storage[UserKey]).Value?)
    ensures r.Success? ==> r.value.storage == cl.storage
    ensures r.Success? && r.value != cl ==> Restorable(cl.storage) && r.value.isLoggedIn
    ensures r.Success? && cl.isLoggedIn ==> r.value.isLoggedIn
    ensures Restorable(cl.storage) && c.parse(cl.storage[UserKey]).Value? ==>
      r == Success(Client(c.parse(cl.storage[UserKey]).v, true, cl.storage))
  {
    if Restorable(cl.storage) then
      match c.parse(cl.storage[UserKey])
      case SyntaxError(message) => Failure(message)
      case Value(v) => Success(Client(v, true, cl.storage))
    else
      Success(cl)
  }

  /** `clearUserSession()`. */
  function Clear(cl: Client): (r: Client)
    ensures r.user == JsNull && !r.isLoggedIn
    ensures UserKey !in r.storage && LoginKey !in r.storage
    ensures OtherKeysUnchanged(cl.storage, r.storage)
  {
    Client(JsNull, false, cl.storage - {UserKey, LoginKey})
  }

  /** The durable copy agrees with the in-memory one: logged in with a user
      whose serialisation is stored next to the "true" marker, or logged out
      with no user and neither key present. */
  ghost predicate Mirrored(cl: Client, c: Codec) {
    || (&& cl.isLoggedIn && cl.user.JsUser?
        && Restorable(cl.storage) && cl.storage[UserKey] == c.stringify(cl.user.u))
    || (&& !cl.isLoggedIn && cl.user == JsNull
        && UserKey !in cl.storage && LoginKey !in cl.storage)
  }

  lemma SaveMirrors(cl: Client, c: Codec, u: Api.User)
    requires Lawful(c)
    ensures Mirrored(Save(cl, c, u), c)
  {
  }

  lemma ClearMirrors(cl: Client, c: Codec)
    ensures Mirrored(Clear(cl), c)
  {
  }

  /** In a mirrored state the durable copy alone determines the session: a
      page reload followed by `loadUserSession` rebuilds exactly the same
      globals, and loading again in place changes nothing. */
  lemma ReloadRestoresMirrored(cl: Client, c: Codec)
    requires Lawful(c) && Mirrored(cl, c)
    ensures Load(Fresh(cl.storage), c) == Success(cl)
    ensures Load(cl, c) == Success(cl)
  {
  }

  /** Save, reload, load: the same user comes back, logged in. */
  lemma SaveReloadRoundTrip(cl: Client, c: Codec, u: Api.User)
    requires Lawful(c)
    ensures var saved := Save(cl, c, u);
      Load(Fresh(saved.storage), c) == Success(Client(JsUser(u), true, saved.storage))
  {
  }

  /** Clear, reload, load: the session stays logged out. */
  lemma ClearReloadStaysLoggedOut(cl: Client, c: Codec)
    ensures var cleared := Clear(cl);
      Load(Fresh(cleared.storage), c) == Success(Fresh(cleared.storage))
      && Load(cleared, c) == Success(cleared)
  {
  }

  /** Loading in a mirrored state keeps it mirrored. */
  lemma LoadPreservesMirrored(cl: Client, c: Codec)
    requires Lawful(c) && Mirrored(cl, c)
    ensures Load(cl, c).Success? && Mirrored(Load(cl, c).value, c)
  {
  }

  /** A stored blob that parses to `null` next to the "true" marker makes
      `loadUserSession` log in with no user object: `isLoggedIn` is true
      while `user` is `null`. */
  lemma NullBlobLogsInWithoutUser(c: Codec, storage: Storage)
    requires Restorable(storage) && c.parse(storage[UserKey]) == Value(JsNull)
    ensures Load(Fresh(storage), c) == Success(Client(JsNull, true, storage))
  {
  }

  /** A blob `JSON.parse` rejects makes `loadUserSession` throw; nothing
      degrades it to the logged-out state. */
  lemma MalformedBlobThrows(cl: Client, c: Codec)
    requires Restorable(cl.storage) && c.parse(cl.storage[UserKey]).SyntaxError?
    ensures Load(cl, c) == Failure(c.parse(cl.storage[UserKey]).message)
  {
  }

  /** A marker other than exactly "true", or an empty or missing blob, leaves
      the page logged out after a reload. */
  lemma UnmarkedStorageStaysLoggedOut(c: Codec, storage: Storage)
    requires LoginKey !in storage || storage[LoginKey] != "true" || UserKey !in storage || storage[UserKey] == ""
    ensures Load(Fresh(storage), c) == Success(Fresh(storage))
  {
  }

  /** The end-to-end login: the mock's reply to `a@b.com` saved and then
      restored after a reload is the demo user with that email. */
  lemma LoginThenReloadExample(c: Codec, cl: Client, hostname: string, now: int, isoNow: string, outcome: Api.FetchOutcome)
    requires Lawful(c)
    ensures var call := Api.ApiRequest("/api/login", Some(map["email" := "a@b.com", "password" := "x"]),
                                       hostname, now, isoNow, outcome);
      && call.result.Success? && call.result.value.UserReply?
      && var saved := Save(cl, c, call.result.value.user);
      Load(Fresh(saved.storage), c).Success?
      && Load(Fresh(saved.storage), c).value.user == JsUser(Api.User(1, Some("Demo User"), Some("a@b.com")))
      && Load(Fresh(saved.storage), c).value.isLoggedIn
  {
    Api.LoginExample(hostname, now, isoNow, outcome);
    SaveReloadRoundTrip(cl, c, Api.User(1, Some("Demo User"), Some("a@b.com")));
  }
}

=== FILE: strings.dfy ===
/** The string primitives the system relies on: JavaScript's `includes` and
    `startsWith`, and the code-point ordering SQLite uses for `ORDER BY` on
    TEXT columns. */
module Strings {

  /** `sub` occurs in `s` starting at index `i`. */
  predicate OccursAt(s: string, sub: string, i: int) {
    0 <= i && i + |sub| <= |s| && s[i..i + |sub|] == sub
  }

  /** `s.includes(sub)`: `sub` occurs somewhere in `s`. */
  predicate Includes(s: string, sub: string) {
    exists i | 0 <= i <= |s| - |sub| :: OccursAt(s, sub, i)
  }

  /** `s.startsWith(p)`. */
  predicate StartsWith(s: string, p: string) {
    |p| <= |s| && s[..|p|] == p
  }

  /** A string that lacks one of the characters of `sub` cannot contain `sub`. */
  lemma MissingCharExcludes(s: string, sub: string, c: char)
    requires c in sub && c !in s
    ensures !Includes(s, sub)
  {
  }

  /** Lexicographic order by code point: `a <= b` for Python and SQLite strings. */
  predicate LexLe(a: string, b: string)
    decreases |a|
  {
    |a| == 0 || (|b| > 0 && (a[0] < b[0] || (a[0] == b[0] && LexLe(a[1..], b[1..]))))
  }

  /** Any two strings are ordered one way or the other. */
  lemma {:induction false} LexTotal(a: string, b: string)
    ensures LexLe(a, b) || LexLe(b, a)
    decreases |a|
  {
    if |a| > 0 && |b| > 0 && a[0] == b[0] {
      LexTotal(a[1..], b[1..]);
    }
  }

  /** The order is transitive. */
  lemma {:induction false} LexTransitive(a: string, b: string, c: string)
    requires LexLe(a, b) && LexLe(b, c)
    ensures LexLe(a, c)
    decreases |a|
  {
    if |a| > 0 && a[0] == b[0] && b[0] == c[0] {
      LexTransitive(a[1..], b[1..], c[1..]);
    }
  }
}

=== FILE: tables.dfy ===
/** The back end's SQLite database (`Backend/app.py`, `init_db`) as an
    immutable value: the three tables as sequences of rows in rowid order,
    and the AUTOINCREMENT counter of each table (the largest id it has ever
    handed out). */
module Tables {
  import opened Wrappers

  /** A row of `users`. */
  datatype UserRow = UserRow(id: int, name: string, email: string, password: string, memberSince: string)

  /** A row of `predictions`. The stored confidence is `votes / 3`, kept
      here as the vote count; `actual` is NULL until feedback arrives. */
  datatype PredictionRow = PredictionRow(
    id: int, userId: int, imagePath: string, predicted: string, votes: nat,
    actual: Option<string>, date: string)

  /** A row of `training_data`; `features` is the list the JSON text holds. */
  datatype TrainingRow = TrainingRow(id: int, imagePath: string, actual: Option<string>, features: seq<int>, added: string)

  datatype Db = Db(
    users: seq<UserRow>, predictions: seq<PredictionRow>, training: seq<TrainingRow>,
    userSeq: nat, predictionSeq: nat, trainingSeq: nat)

  /** The freshly created database. */
  const Empty: Db := Db([], [], [], 0, 0, 0)

  /** `email TEXT UNIQUE`. */
  predicate EmailTaken(users: seq<UserRow>, email: string) {
    exists i | 0 <= i < |users| :: users[i].email == email
  }

  /** What SQLite guarantees of every table: ids are positive, increase
      with rowid order and never exceed the table's counter; no two users
      share an email. */
  ghost predicate Valid(db: Db) {
    && (forall i | 0 <= i < |db.users| :: 0 < db.users[i].id <= db.userSeq)
    && (forall i, j | 0 <= i < j < |db.users| :: db.users[i].id < db.users[j].id)
    && (forall i, j | 0 <= i < j < |db.users| :: db.users[i].email != db.users[j].email)
    && (forall i | 0 <= i < |db.predictions| :: 0 < db.predictions[i].id <= db.predictionSeq)
    && (forall i, j | 0 <= i < j < |db.predictions| :: db.predictions[i].id < db.predictions[j].id)
    && (forall i | 0 <= i < |db.training| :: 0 < db.training[i].id <= db.trainingSeq)
    && (forall i, j | 0 <= i < j < |db.training| :: db.training[i].id < db.training[j].id)
  }

  lemma EmptyIsValid()
    ensures Valid(Empty)
  {
  }

  /** `INSERT INTO users`: the AUTOINCREMENT id is one past the counter. */
  function InsertUser(db: Db, name: string, email: string, password: string, memberSince: string): (r: Db)
    ensures r.users == db.users + [UserRow(db.userSeq + 1, name, email, password, memberSince)]
    ensures r.userSeq == db.userSeq + 1
    ensures r.predictions == db.predictions && r.training == db.training
    ensures Valid(db) && !EmailTaken(db.users, email) ==> Valid(r)
  {
    db.(users := db.users + [UserRow(db.userSeq + 1, name, email, password, memberSince)],
        userSeq := db.userSeq + 1)
  }

  /** `INSERT INTO predictions`; `actual_blood_group` is left NULL. */
  function InsertPrediction(db: Db, userId: int, imagePath: string, predicted: string, votes: nat, date: string): (r: Db)
    ensures r.predictions == db.predictions + [PredictionRow(db.predictionSeq + 1, userId, imagePath, predicted, votes, None, date)]
    ensures r.users == db.users && r.training == db.training
    ensures Valid(db) ==> Valid(r)
  {
    db.(predictions := db.predictions + [PredictionRow(db.predictionSeq + 1, userId, imagePath, predicted, votes, None, date)],
        predictionSeq := db.predictionSeq + 1)
  }

  /** `INSERT INTO training_data`. */
  function InsertTraining(db: Db, imagePath: string, actual: Option<string>, features: seq<int>, added: string): (r: Db)
    ensures r.training == db.training + [TrainingRow(db.trainingSeq + 1, imagePath, actual, features, added)]
    ensures r.users == db.users && r.predictions == db.predictions
    ensures Valid(db) ==> Valid(r)
  {
    db.(training := db.training + [TrainingRow(db.trainingSeq + 1, imagePath, actual, features, added)],
        trainingSeq := db.trainingSeq + 1)
  }

  /** Feedback's update: the actual group is set on the rows with the id. A NULL id
      (`None`) matches no row. */
  function SetActual(rows: seq<PredictionRow>, id: Option<int>, actual: Option<string>): (r: seq<PredictionRow>)
    ensures |r| == |rows|
    ensures forall i | 0 <= i < |rows| ::
      r[i] == if id == Some(rows[i].id) then rows[i].(actual := actual) else rows[i]
  {
    if |rows| == 0 then []
    else
      var head := if id == Some(rows[0].id) then rows[0].(actual := actual) else rows[0];
      [head] + SetActual(rows[1..], id, actual)
  }

  /** Feedback's lookup of a prediction by id: the first row with that id. */
  function FindPrediction(rows: seq<PredictionRow>, id: Option<int>): (r: Option<PredictionRow>)
    ensures r.Some? <==> exists i | 0 <= i < |rows| :: id == Some(rows[i].id)
    ensures r.Some? ==> r.value in rows && id == Some(r.value.id)
  {
    if |rows| == 0 then None
    else if id == Some(rows[0].id) then Some(rows[0])
    else
      var r := FindPrediction(rows[1..], id);
      assert r.Some? ==> r.value in rows;
      assert (exists i | 0 <= i < |rows| :: id == Some(rows[i].id)) ==> r.Some? by {
        if exists i | 0 <= i < |rows| :: id == Some(rows[i].id) {
          var i :| 0 <= i < |rows| && id == Some(rows[i].id);
          assert id == Some(rows[1..][i - 1].id);
        }
      }
      r
  }
}

=== FILE: upload.dfy ===
/** The prediction tab of the front-end (`Frontend/script.js`): choosing or
    dropping a file (`handleFileSelect`) and the click on the predict button
    (`handlePrediction`). The file reader's load and the `fetch` are taken as
    completed; what `fetch` did is an input. */
module Upload {
  import opened Wrappers
  import opened Strings
  import Api
  import Session

  datatype File = File(name: string, mimeType: string)

  /** The tab's state: the file the hidden file input holds, the file shown
      in the preview, and whether the predict button is enabled. */
  datatype View = View(inputFile: Option<File>, preview: Option<File>, predictEnabled: bool)

  /** The tab as rendered: nothing chosen, the button disabled. */
  const Initial: View := View(None, None, false)

  const NotImageNotice: string := "Please select an image file"
  const NoFileNotice: string := "Please select an image first"
  const PredictionFailedNotice: string := "Prediction failed"

  /** The endpoint `handlePrediction` posts to. */
  const PredictEndpoint: string := "/api/predict"

  predicate IsImage(f: File) {
    StartsWith(f.mimeType, "image/")
  }

  /** A state change together with the toast it raises, if any. */
  datatype Step = Step(view: View, notice: Option<string>)

  /** `handleFileSelect(file)`: a non-image is refused with a notice; an
      image is previewed and enables the button. */
  function SelectFile(v: View, f: File): (r: Step)
    ensures r.notice.None? <==> IsImage(f)
    ensures r.view.inputFile == v.inputFile
    ensures r.view.predictEnabled ==> v.predictEnabled || IsImage(f)
    ensures IsImage(f) ==> r.view.predictEnabled && r.view.preview == Some(f)
    ensures !IsImage(f) ==> r.view == v
  {
    if !IsImage(f) then Step(v, Some(NotImageNotice))
    else Step(v.(preview := Some(f), predictEnabled := true), None)
  }

  /** The file input's `change` event: the browser stores the chosen file in
      the input whatever its type, then `handleFileSelect` runs. */
  function Choose(v: View, f: File): (r: Step)
    ensures r.view.inputFile == Some(f)
    ensures r.view.predictEnabled == (v.predictEnabled || IsImage(f))
  {
    SelectFile(v.(inputFile := Some(f)), f)
  }

  /** The upload area's `drop` event: `handleFileSelect` runs, but the file
      input is left as it was. */
  function Drop(v: View, f: File): (r: Step)
    ensures r.view.inputFile == v.inputFile
    ensures r.view.predictEnabled == (v.predictEnabled || IsImage(f))
  {
    SelectFile(v, f)
  }

  /** The multipart form `handlePrediction` sends: the file, `user_id`, and
      `user_email`/`user_name` when a user is set (an `undefined` field
      becomes the text "undefined" in a form). */
  datatype PredictionForm = PredictionForm(file: File, userId: int, contact: Option<(string, string)>)

  /** A field value as `FormData.append` writes it. */
  function FormText(v: Option<string>): (t: string)
    ensures v.Some? ==> t == v.value
    ensures v.None? ==> t == "undefined"
  {
    v.GetOr("undefined")
  }

  /** One click on the predict button: the request sent (URL and form), the
      response body rendered, the toast raised, and the resulting tab. */
  datatype Submission = Submission(sent: Option<(string, PredictionForm)>, shown: Option<string>,
                                   notice: Option<string>, view: View)

  /** The toast of a failed prediction: the thrown error's message. */
  function FailureNotice(outcome: Api.FetchOutcome): (m: string)
    requires !outcome.Ok?
    ensures outcome.Throws? || outcome.Unparsable? ==> m == outcome.message
    ensures outcome.NotOk? && outcome.error.Some? && outcome.error.value != "" ==> m == outcome.error.value
    ensures outcome.NotOk? && (outcome.error.None? || outcome.error.value == "") ==> m == PredictionFailedNotice
  {
    match outcome
    case Throws(message) => message
    // `response.json()` rejects before `response.ok` is looked at.
    case Unparsable(_, _, message) => message
    // `result.error || 'Prediction failed'`: an empty error string is falsy.
    case NotOk(_, error) => if error.Some? && error.value != "" then error.value else PredictionFailedNotice
  }

  /** `handlePrediction()` for the page's `user` global. It calls `fetch`
      itself, not the request wrapper, so a failure is shown as a toast and
      no fallback prediction is involved. */
  function HandlePrediction(v: View, user: Session.Js, hostname: string, outcome: Api.FetchOutcome): (r: Submission)
    ensures v.inputFile.None? ==> r == Submission(None, None, Some(NoFileNotice), v)
    ensures v.inputFile.Some? ==> r.sent.Some? && r.view == v.(predictEnabled := true)
    ensures r.sent.Some? ==>
      && r.sent.value.0 == Api.AzureFunctionApi + PredictEndpoint
      && r.sent.value.1.file == v.inputFile.value
      && r.sent.value.1.userId == (if user.JsUser? then user.u.id else 1)
      && (r.sent.value.1.contact.Some? <==> user.JsUser?)
      && (user.JsUser? ==> r.sent.value.1.contact == Some((FormText(user.u.email), FormText(user.u.name))))
    ensures r.shown.Some? <==> r.sent.Some? && outcome.Ok?
    ensures r.shown.Some? ==> r.shown == Some(outcome.text)
    ensures r.sent.Some? ==> (r.shown.Some? <==> r.notice.None?)
    ensures r.sent.Some? && !outcome.Ok? ==> r.notice == Some(FailureNotice(outcome))
  {
    assert OccursAt(PredictEndpoint, Api.PredictPath, 4);
    match v.inputFile
    case None => Submission(None, None, Some(NoFileNotice), v)
    case Some(file) =>
      var form := match user
        case JsNull => PredictionForm(file, 1, None)
        case JsUser(u) => PredictionForm(file, u.id, Some((FormText(u.email), FormText(u.name))));
      var url := Api.GetApiUrl(PredictEndpoint, hostname);
      // The `finally` block re-enables the button on every exit.
      var after := v.(predictEnabled := true);
      match outcome
      case Ok(body) => Submission(Some((url, form)), Some(body), None, after)
      case _ => Submission(Some((url, form)), None, Some(FailureNotice(outcome)), after)
  }

  /** A click on the predict button: a disabled button fires no event. */
  function Click(v: View, user: Session.Js, hostname: string, outcome: Api.FetchOutcome): (r: Submission)
    ensures !v.predictEnabled ==> r.sent.None? && r.view == v && r.notice.None?
    ensures v.predictEnabled ==> r == HandlePrediction(v, user, hostname, outcome)
  {
    if v.predictEnabled then HandlePrediction(v, user, hostname, outcome)
    else Submission(None, None, None, v)
  }

  /** The button is enabled only once an image has been previewed. */
  ghost predicate EnabledOnlyAfterImage(v: View) {
    v.predictEnabled ==> v.preview.Some? && IsImage(v.preview.value)
  }

  lemma InitialDisabled()
    ensures EnabledOnlyAfterImage(Initial) && !Initial.predictEnabled
  {
  }

  /** Every event of the tab keeps the button disabled until an image has
      been previewed. */
  lemma EventsKeepEnabledOnlyAfterImage(v: View, f: File, user: Session.Js, hostname: string, outcome: Api.FetchOutcome)
    requires EnabledOnlyAfterImage(v)
    ensures EnabledOnlyAfterImage(Choose(v, f).view)
    ensures EnabledOnlyAfterImage(Drop(v, f).view)
    ensures EnabledOnlyAfterImage(Click(v, user, hostname, outcome).view)
  {
  }

  /** A non-image file, chosen or dropped, never enables a disabled button. */
  lemma NonImageNeverEnables(v: View, f: File)
    requires !IsImage(f) && !v.predictEnabled
    ensures !Choose(v, f).view.predictEnabled && Choose(v, f).notice == Some(NotImageNotice)
    ensures Drop(v, f) == Step(v, Some(NotImageNotice))
  {
  }

  /** The guard sits in the selection handler only: after an image has
      enabled the button, choosing a non-image is refused with a toast, but
      the input now holds it and the next click sends it. */
  lemma NonImageSentAfterImage(image: File, other: File, user: Session.Js, hostname: string, outcome: Api.FetchOutcome)
    requires IsImage(image) && !IsImage(other)
    ensures var v := Choose(Choose(Initial, image).view, other).view;
      && Click(v, user, hostname, outcome).sent.Some?
      && Click(v, user, hostname, outcome).sent.value.1.file == other
  {
  }

  /** A dropped image enables the button but never reaches the file input,
      so the click is refused with "Please select an image first". */
  lemma DroppedImageNotSent(image: File, user: Session.Js, hostname: string, outcome: Api.FetchOutcome)
    requires IsImage(image)
    ensures var v := Drop(Initial, image).view;
      && v.predictEnabled
      && Click(v, user, hostname, outcome) == Submission(None, None, Some(NoFileNotice), v)
  {
  }

  /** Submitting with no session uses the guest id 1 and no contact fields. */
  lemma GuestSubmission(v: View, hostname: string, outcome: Api.FetchOutcome)
    requires v.inputFile.Some?
    ensures var r := HandlePrediction(v, Session.JsNull, hostname, outcome);
      r.sent.Some? && r.sent.value.1.userId == 1 && r.sent.value.1.contact.None?
  {
  }
}

=== FILE: vote.dfy ===
/** The ensemble step of the back end's `predict` (`Backend/app.py`): the
    class indices output by the random forest, the SVM and the CNN are
    combined by `scipy.stats.mode`, and the confidence is the winner's count
    out of three. Which of three different votes `mode` picks is not modelled:
    the caller names the winning position with `tie`. */
module Vote {
  import opened Groups

  /** How many of `votes` equal `x`. */
  function Count(votes: seq<GroupIndex>, x: GroupIndex): (n: nat)
    ensures n <= |votes|
    ensures n == 0 <==> x !in votes
  {
    if |votes| == 0 then 0
    else (if votes[0] == x then 1 else 0) + Count(votes[1..], x)
  }

  /** The outcome of `mode`: the winning index and how often it occurs. */
  datatype Ballot = Ballot(winner: GroupIndex, count: nat)

  /** `b` is a mode of `votes`: an occurring value, with its true count, and
      no value occurs more often. */
  ghost predicate IsMode(votes: seq<GroupIndex>, b: Ballot) {
    && b.winner in votes
    && b.count == Count(votes, b.winner)
    && forall x: GroupIndex :: Count(votes, x) <= b.count
  }

  lemma CountOfThree(a: GroupIndex, b: GroupIndex, c: GroupIndex, x: GroupIndex)
    ensures Count([a, b, c], x) == (if a == x then 1 else 0) + (if b == x then 1 else 0) + (if c == x then 1 else 0)
  {
  }

  /** The majority vote over the three model outputs. */
  function MajorityVote(rf: GroupIndex, svm: GroupIndex, cnn: GroupIndex, tie: nat): (b: Ballot)
    requires tie < 3
    ensures IsMode([rf, svm, cnn], b)
    ensures 1 <= b.count <= 3
    ensures rf == svm == cnn ==> b == Ballot(rf, 3)
    ensures rf != svm && svm != cnn && rf != cnn ==> b == Ballot([rf, svm, cnn][tie], 1)
  {
    forall x: GroupIndex ensures Count([rf, svm, cnn], x) == (if rf == x then 1 else 0) + (if svm == x then 1 else 0) + (if cnn == x then 1 else 0) {
      CountOfThree(rf, svm, cnn, x);
    }
    if rf == svm && svm == cnn then Ballot(rf, 3)
    else if rf == svm || rf == cnn then Ballot(rf, 2)
    else if svm == cnn then Ballot(svm, 2)
    else Ballot([rf, svm, cnn][tie], 1)
  }

  /** Two equal votes out of three win with count 2, whichever two they are. */
  lemma TwoOfThreeWins(rf: GroupIndex, svm: GroupIndex, cnn: GroupIndex, tie: nat, shared: GroupIndex)
    requires tie < 3
    requires Count([rf, svm, cnn], shared) == 2
    ensures MajorityVote(rf, svm, cnn, tie) == Ballot(shared, 2)
  {
  }

  /** The confidence `count / 3.0` the back end stores and reports. */
  function Confidence(b: Ballot): (c: real)
    requires 1 <= b.count <= 3
    ensures 3.0 * c == b.count as real
    ensures c in {1.0 / 3.0, 2.0 / 3.0, 1.0}
  {
    b.count as real / 3.0
  }

  /** The stored label is the table's name for the winning index. */
  function WinningLabel(b: Ballot): (name: string)
    ensures name in BloodGroups && BloodGroups[name] == b.winner
  {
    LabelOf(b.winner)
  }
}

=== FILE: wrappers.dfy ===
/** Wrappers shared by the front-end and back-end models:
    `Option` stands for JavaScript's `undefined`/`null` and Python's `None`,
    `Result` for a value or a thrown error. */
module Wrappers {

  datatype Option<+T> = None | Some(value: T) {

    /** The value, or `default` when there is none. */
    function GetOr(default: T): T {
      match this
      case Some(v) => v
      case None => default
    }
  }

  datatype Result<+R, +E> = Success(value: R) | Failure(error: E)
}
